=== FILE: README.md ===
# Report-page decision logic of the agricultural BI dashboard

The dashboard renders financial indicators, fuel consumption, production
costs and grain stock fetched from report services. Almost all of it is
markup. This project models the small amount of decision logic that sits in
its components. That logic is lifted out as pure functions and small state
transitions over immutable datatypes:

- **Permission gate** (`Permissions`, from the application shell). The
  permission list starts empty. It is loaded at most once, on the first
  render, and only when a user id is in the URL. `hasPermission` is list
  membership.
- **Paged discount chart** (`DiscountChart`). A seven-bar window over the
  values, with back and forward controls. The page is reset when the data
  changes. Labels are cut at 40 characters and the axis is scaled by the
  largest value.
- **Fuel detail page** (`FuelDetails`). Option lists start with the `"_"`
  "Todos" entry. Date parameters are read from the URL. A reversed date
  range aborts the fetch with a toast. The `"_"` sentinel is omitted from
  the request. The detail list is replaced wholesale when a fetch completes.
  The module also covers the layout and formats of the export sheet and its
  file name.
- **Cost per field card** (`TalhaoCost`). The load is guarded by the
  permission, a non-empty crop-season list and the date order. The season
  parameter is the comma join of all seasons or the selected one. The cost
  basis chooses which figure is shown.
- **Producer stock drill-down** (`ProducerScale`). The option list, the
  default selection and a first-match lookup that falls back to the zeroed
  `NENHUM` record. Also the not-allowed overlay and the download name.
- **Financial views** (`FinancialViews`). A permission-gated load, the
  singular/plural count caption, and the placeholder card.

Shared pieces live in `Common` (options, toasts, dates, the date-order
check) and `JsValues` (JavaScript's `String(n)`, `Number(s)`, `join` and
`slice` as the pages use them, and `split`, the inverse of `join`, used to
state what the service reads back from a joined parameter). Dates are abstract ordered
values, written as day numbers. Date formatting is an opaque function
passed in by the caller. Service answers, URL parameters and permission
lists are inputs.

## Model

| member | source | states |
|---|---|---|
| `JsValues.NumberOfString` | src/pages/BeanStock/components/ProducerScaleDetails/index.tsx:24-33 | `Number(String(id))` is `id` for every integer id, so an option value built from an id finds that id again |
| `JsValues.ToNumber` | src/pages/BeanStock/components/ProducerScaleDetails/index.tsx:21-33 | the `"_"` selection reads as NaN |
| `JsValues.SplitJoin` | src/pages/ProductionCost/Components/TalhaoCost/index.tsx:70 | splitting the comma join of a non-empty list of comma-free ids gives the list back |
| `JsValues.SliceNonNegative` | src/pages/Production/Components/DiscountChart/index.tsx:19-20 | with bounds `0 <= start <= end`, `slice` is the sub-sequence between the bounds, each cut at the length, and has at most `end - start` items |
| `Permissions.Includes` | src/components/App/index.tsx:85-87 | the front-to-back scan is true iff some entry equals the code |
| `Permissions.HasPermission` | src/components/App/index.tsx:85-87 | `hasPermission(c)` holds iff `c` is in the current permission list |
| `Permissions.FailsClosed` | src/components/App/index.tsx:63-87 | before any load the list is empty and every code is denied |
| `Permissions.LoadRequest` | src/components/App/index.tsx:73-77 | a lookup is issued iff it is the first render and the user id is truthy; the id goes through `Number`; the database name is passed iff truthy |
| `Permissions.Render` | src/components/App/index.tsx:71-83 | a render issues at most one lookup, and only the first render can; a lookup replaces the list with the answer, otherwise the list is unchanged; the first render with a truthy user id does issue `LoadRequest`'s lookup and installs the answer |
| `Permissions.AtMostOneLoad` | src/components/App/index.tsx:65-83 | over any number of renders at most one lookup is issued; without one the list stays empty |
| `Permissions.AfterFirstRender` | src/components/App/index.tsx:71-83 | after the first render further renders leave the shell unchanged |
| `Permissions.NoUserNoPermissions` | src/components/App/index.tsx:63-78 | if the first render has no user id, every code stays denied for the whole session |
| `Permissions.UserLoadsPermissions` | src/components/App/index.tsx:63-87 | if the first render has a truthy user id, the session issues exactly that render's lookup and the gate then answers from the service's reply |
| `DiscountChart.WindowIsPageSlice` | src/pages/Production/Components/DiscountChart/index.tsx:14-21 | on page `p >= 0` the window is `data[min(7p,len) .. min(7p+7,len)]`, at most 7 items, and non-empty when `7p < len`; labels use the same bounds |
| `DiscountChart.StepKeepsInvariant` | src/pages/Production/Components/DiscountChart/index.tsx:17-134 | every event keeps the page non-negative and any page but the first inside the data; a click on a shown back or forward control moves exactly one page in its direction, a click on a hidden one changes nothing, and clicks never change the data or labels |
| `DiscountChart.NewDataShowsFirstPage` | src/pages/Production/Components/DiscountChart/index.tsx:18-25 | after any change of `data` the chart shows the first seven values and labels of the new data, whatever page it was on |
| `DiscountChart.RunKeepsInvariant` | src/pages/Production/Components/DiscountChart/index.tsx:17-134 | any sequence of events keeps the invariant, so the window is never empty while there is data |
| `DiscountChart.MountedWindowNeverEmpty` | src/pages/Production/Components/DiscountChart/index.tsx:17-25 | from mount, under any events, the page is non-negative and the window is non-empty whenever the data is |
| `DiscountChart.InvariantPagesArePageCount` | src/pages/Production/Components/DiscountChart/index.tsx:127 | the pages the invariant admits are exactly those below `PageCount(len)`, which is `ceil(len/7)` and 1 for no data |
| `DiscountChart.ControlsMarkFirstAndLastPage` | src/pages/Production/Components/DiscountChart/index.tsx:116-134 | the footer is rendered iff `len > 5`; back is shown iff the footer is and the page is not the first; forward is shown iff the footer is and the page is below `PageCount(len) - 1` (`PageCount` is `ceil(len/7)`, and 1 for no data) |
| `DiscountChart.ForwardReachesEveryPage` | src/pages/Production/Components/DiscountChart/index.tsx:127-133 | every page below `PageCount(len)` (`ceil(len/7)`, and 1 for no data) is reached from page 0 by forward clicks |
| `DiscountChart.ForwardSteps` | src/pages/Production/Components/DiscountChart/index.tsx:127-133 | `n` forward clicks from a valid page advance it by exactly `n` while pages remain |
| `DiscountChart.FoldMaxIsMax` | src/pages/Production/Components/DiscountChart/index.tsx:27-31 | the `Math.max` fold is at least every element and the seed, and equals the seed or some element |
| `DiscountChart.HigherValueIsMaximum` | src/pages/Production/Components/DiscountChart/index.tsx:27-31 | `getHigherValue` is -Infinity iff the list is empty; otherwise it bounds every element and is one of them |
| `DiscountChart.TruncateLabel` | src/pages/Production/Components/DiscountChart/index.tsx:49 | labels of at most 40 characters are unchanged; longer ones become their first 40 characters plus `...` (43 characters) |
| `DiscountChart.TruncateIdempotent` | src/pages/Production/Components/DiscountChart/index.tsx:49 | truncating an already truncated label changes nothing |
| `DiscountChart.Render` | src/pages/Production/Components/DiscountChart/index.tsx:39-80 | the empty state is shown iff there is no data; otherwise the bars are the page window, the labels are the window's labels truncated, and the axis maximum comes from the whole data |
| `DiscountChart.BarsFitAxis` | src/pages/Production/Components/DiscountChart/index.tsx:47-80 | under the invariant a rendered page has 1 to 7 bars and every bar fits under the axis maximum |
| `FuelDetails.DateFromParam` | src/pages/FuelingFuelDetails/index.tsx:47-52 | a URL date equal to `"_"` gives no date; anything else is parsed |
| `FuelDetails.UrlDatesReachRequestAndFileName` | src/pages/FuelingFuelDetails/index.tsx:47-175 | a `"_"` URL date is sent as `""` and written as `-` in the download name, which reads back as no bound; a set URL date is sent and written as the same formatted text |
| `FuelDetails.EntityOptions` | src/pages/FuelingFuelDetails/index.tsx:72-85 | the list has n+1 entries, starts with `{'_','Todos'}`, and entry i+1 is `{String(id_i), name_i}` in service order |
| `FuelDetails.EntityOptionsIdentifyEntities` | src/pages/FuelingFuelDetails/index.tsx:72-85 | no entity option carries the `"_"` value, and each option value reads back as its entity's id |
| `FuelDetails.OptionalFilter` | src/pages/FuelingFuelDetails/index.tsx:114-116 | a filter field is omitted iff the selection is `"_"`, and is otherwise passed unchanged |
| `FuelDetails.OptionalFilterRoundTrip` | src/pages/FuelingFuelDetails/index.tsx:114-116 | the request field gives back the selection for every selection, so `"_"` is the same as omitting the field |
| `FuelDetails.Request` | src/pages/FuelingFuelDetails/index.tsx:110-117 | `custo` is passed unchanged; a missing date is sent as the empty string, a set one formatted; each entity filter gives back its selection |
| `FuelDetails.BeginLoad` | src/pages/FuelingFuelDetails/index.tsx:98-117 | the fetch is aborted iff both dates are set and end < start; an abort clears loading, raises the danger toast and keeps the lines; otherwise the request is issued with loading set |
| `FuelDetails.ReconcileOutcome` | src/pages/FuelingFuelDetails/index.tsx:97-125 | every reconciliation ends with loading cleared; for a valid range the lines are replaced wholesale by the answer, for a reversed one they are kept; the toast is raised iff the range is reversed; equal dates are valid |
| `FuelDetails.Record` | src/pages/FuelingFuelDetails/index.tsx:133-142 | the object written for a line has the 8 keys in the fixed column order |
| `FuelDetails.DataRow` | src/pages/FuelingFuelDetails/index.tsx:133-142 | each data row has 8 unformatted cells, and every cell holds the line field its column title names (date, requisition number, asset, fuel, exit location, litres, cost per litre, total) |
| `FuelDetails.RawSheet` | src/pages/FuelingFuelDetails/index.tsx:133-142 | no lines give an empty sheet; otherwise one header row of the 8 column names taken from the record's keys, then one row per line in order |
| `FuelDetails.ApplyFormats` | src/pages/FuelingFuelDetails/index.tsx:144-148 | rows 2..n+1 get the date format in column A and the currency format in G and H; values, the header and all other cells are unchanged |
| `FuelDetails.ExportSheet` | src/pages/FuelingFuelDetails/index.tsx:131-148 | the exported sheet has a header plus one row per line; every data row carries its line's values, with date format on A and currency format on G and H |
| `FuelDetails.FileNameRecordsRange` | src/pages/FuelingFuelDetails/index.tsx:158-175 | the file name `RESUMO POR COMBUSTIVEL <start or -> À <end or -> .xlsx` can be parsed back into the two bounds and tells which ones were set |
| `TalhaoCost.InitialCardIsEmpty` | src/pages/ProductionCost/Components/TalhaoCost/index.tsx:33-39 | the card mounts loading, with every season selected and an all-zero report without lines |
| `TalhaoCost.SafraParamNamesSelection` | src/pages/ProductionCost/Components/TalhaoCost/index.tsx:70 | with `"_"` the season parameter splits back into exactly the season list; otherwise it is the selected season alone |
| `TalhaoCost.BeginLoad` | src/pages/ProductionCost/Components/TalhaoCost/index.tsx:47-78 | a fetch happens iff the permission is held, the season list is non-empty and the range is ordered; otherwise loading ends with the report kept, and the toast is raised only for a reversed range |
| `TalhaoCost.ReconcileOutcome` | src/pages/ProductionCost/Components/TalhaoCost/index.tsx:47-78 | every load ends with loading false and the selection kept; the report becomes the answer iff a fetch was made; without the permission or with no season the card changes only by clearing loading |
| `TalhaoCost.StaleSeasonRequested` | src/pages/ProductionCost/Components/TalhaoCost/index.tsx:43-81 | as written, a season list change from selection "5" to the list `["7"]` first requests season "5" |
| `TalhaoCost.RequestsOnNewSeasonsReset` | src/pages/ProductionCost/Components/TalhaoCost/index.tsx:43-81 | with the reset applied first, a season list change issues at most one request, for the joined new list |
| `TalhaoCost.ResetRequestsNameNewSeasons` | src/pages/ProductionCost/Components/TalhaoCost/index.tsx:43-81 | with the reset applied first, every request names exactly the new season list |
| `TalhaoCost.ResetSelection` | src/pages/ProductionCost/Components/TalhaoCost/index.tsx:43-45 | a new season list puts the selection back on `"_"` and changes nothing else |
| `TalhaoCost.SeasonSelector` | src/pages/ProductionCost/Components/TalhaoCost/index.tsx:87-92 | the selector appears iff there are at least 2 options, led by the `"_"` entry and followed by the options |
| `TalhaoCost.ChartData` | src/pages/ProductionCost/Components/TalhaoCost/index.tsx:117-124 | one chart value per line, in order |
| `TalhaoCost.BasisSelectsFigures` | src/pages/ProductionCost/Components/TalhaoCost/index.tsx:108-124 | `cost` charts `total`, `hectareCost` charts `totalPorHectare`, any other basis charts `porcentagem`; the header shows `totalCustoPorHectare` for `hectareCost`, `totalCusto` for `cost`/`percent`, and nothing otherwise; the per-hectare caption goes with the per-hectare amount, and any other caption with `totalCusto` or no amount |
| `TalhaoCost.ShowNotAllowed` | src/pages/ProductionCost/Components/TalhaoCost/index.tsx:101 | the overlay covers the card iff `custo_producao_talhao` is not held |
| `ProducerScale.ProducerOptions` | src/pages/BeanStock/components/ProducerScaleDetails/index.tsx:23-30 | one option `{String(idProdutor), produtor}` per producer in order; the selection moves to the first one; needs a non-empty list |
| `ProducerScale.FindProducer` | src/pages/BeanStock/components/ProducerScaleDetails/index.tsx:32-34 | `find` returns the first index whose id equals the number, or none when no id does |
| `ProducerScale.SelectedStock` | src/pages/BeanStock/components/ProducerScaleDetails/index.tsx:31-60 | the result is a member of the list or the zeroed `NENHUM` record; it matches the selected id when some producer does, and is the fallback when none does |
| `ProducerScale.SelectedStockIsFirstMatch` | src/pages/BeanStock/components/ProducerScaleDetails/index.tsx:32-34 | the lookup returns the earliest producer carrying the selected id |
| `ProducerScale.InitialSelectionShowsFallback` | src/pages/BeanStock/components/ProducerScaleDetails/index.tsx:21-57 | the initial `"_"` selection matches no producer and shows the fallback |
| `ProducerScale.DefaultSelectionShowsFirstProducer` | src/pages/BeanStock/components/ProducerScaleDetails/index.tsx:23-34 | after the options are built the first producer's own ledger is shown |
| `ProducerScale.OptionSelectsItsProducer` | src/pages/BeanStock/components/ProducerScaleDetails/index.tsx:26-34 | choosing a producer's option shows a ledger from the list with that producer's id |
| `ProducerScale.ShowNotAllowed` | src/pages/BeanStock/components/ProducerScaleDetails/index.tsx:105 | the overlay is drawn iff `estoque_graos_produtor` is not held |
| `ProducerScale.OptionText` | src/pages/BeanStock/components/ProducerScaleDetails/index.tsx:85 | the label found belongs to an option with the value and no earlier option has that value; there is none iff no option has the value |
| `ProducerScale.OptionTextIsFirstMatch` | src/pages/BeanStock/components/ProducerScaleDetails/index.tsx:85 | for the first option carrying the value, `find` gives exactly that option's label |
| `ProducerScale.DefaultDownloadNamesFirstProducer` | src/pages/BeanStock/components/ProducerScaleDetails/index.tsx:85 | with the default selection the download is `SALDO <first producer> - VIS??O DETALHADA` |
| `ProducerScale.DownloadNameShape` | src/pages/BeanStock/components/ProducerScaleDetails/index.tsx:85 | the name is the fixed prefix, then the label of the first option with the selected value (nothing when no option has it), then the fixed suffix |
| `FinancialViews.DeniedLoadKeepsNoViews` | src/pages/FinancialViews/index.tsx:10-23 | without the permission the views stay `[]` after the load |
| `FinancialViews.CaptionStatesCount` | src/pages/FinancialViews/index.tsx:35 | the caption's number reads back as the view count, and the singular noun is used iff there is exactly one view |
| `FinancialViews.LoadedPageShows` | src/pages/FinancialViews/index.tsx:10-46 | the page starts loading and is not loading after the load; a user with access then sees one card per served view; one without sees the single placeholder (id 1, `Indicador`) and a count of zero |

## Findings

| source | as written | input that shows it | evidently intended | confidence | as-written member | corrected member |
|---|---|---|---|---|---|---|
| src/pages/ProductionCost/Components/TalhaoCost/index.tsx:43-81 | when `safraIds` changes, the reset effect only schedules `selectedSafra = '_'`; the load effect of the same commit still reads the old selection and requests that season, then a second load requests the joined list | selection `"5"`, new `safraIds` `["7"]`: the first request has `safraId` `"5"`, which is not in the new list; with no stale-response guard its answer can be the one displayed | a season list change requests only the new list (`"_"`, joined) | medium, not executed | `TalhaoCost.StaleSeasonRequested` | `TalhaoCost.ResetRequestsNameNewSeasons` |

## Left out

- Markup, styling, Chart.js registration and options, the `* 1.2` axis headroom, `Intl.NumberFormat` and currency formatting. These are layout, locale formatting and floating point.
- Date parsing and formatting (date-fns) are opaque functions passed in. Dates are day numbers, so an invalid `Date` object is not modelled.
- URL parameters are modelled as strings. A missing parameter that `query.get` returns as `null`, and is then parsed, is not modelled.
- React effect scheduling and asynchronous interleaving. A fetch is its request plus a completion function, and the service answer is an input. The fuel page and the cost card have no stale-response guard, and network errors are not handled. The model claims neither.
- On a new data array the chart resets its page in an effect, after the render. That one render still uses the old page over the new data. The model treats the reset as part of the data change.
- The fuel page's first load joins three reference services with `Promise.all`. Only the option lists built from their answers are modelled.
- The fuel detail table's grouping by fuel type, sorting and row expansion. These belong to the table component.
- Spreadsheet bytes, the workbook's sheet name and author, the file-saver download, and the html2canvas image. Only the row and column layout, cell formats and file names are modelled.
- An empty producer list. The options memo reads the first producer unconditionally and throws, so `ProducerScale.ProducerOptions` requires a non-empty list.
- `useFirstRender` is not part of this model. It is taken to be true exactly on the shell's first render.
- `JsValues.ToNumber` models `Number` only for decimal integer text with an optional sign (the empty string is 0). Other forms JavaScript accepts, such as padding spaces, fractions, exponents or hex, read as NaN here. The ids the pages compare are integers rendered by `String`, so this does not change any lookup.
- `DiscountChart.TruncateLabel`: lengths count Unicode characters, while JavaScript's `length` and `slice` count UTF-16 code units. The two agree on labels without characters above U+FFFF. A longer label with such characters may be cut at a different place, or kept whole where the page cuts it.
- `ProducerScale.ShowNotAllowed`: the drill-down reads `hasPermission` from the context in `src/contexts/UserContext`, not from the shell's own context. That file is not part of this model. The model assumes that context serves the same permission list as the shell.
- Chart values and ids are integers, and amounts are reals. NaN and infinite amounts are not modelled.
- `JsValues.IntToString`: ids are taken to be safe integers (absolute value below 2^53). For those, JavaScript's `String` writes the same plain decimal digits. From 10^21 on JavaScript switches to exponent form (`"1e+21"`), and beyond 2^53 a double does not hold every integer; the model writes all digits of any integer.

=== FILE: common.dfy ===
/** Shared vocabulary of the report pages: optional values, select options,
    toast notifications and the date-range validation every filter uses. */
module Common {

  /** A value that may be absent (`null`/`undefined` in the dashboard). */
  datatype Option<+T> = None | Some(value: T)

  /** Calendar dates are abstract and totally ordered; the model counts days
      from an arbitrary epoch. Formatting a date is an opaque function supplied
      by the caller (date-fns in the dashboard). */
  type Date = int

  /** One entry of a select control: the submitted value and the shown text (`label` in the dashboard). */
  datatype SelectOption = SelectOption(value: string, text: string)

  /** The sentinel value that means "every entity" in a select control. */
  const AllValue: string := "_"

  /** The "all" entry placed at the front of reference-data option lists. */
  const AllOption: SelectOption := SelectOption(AllValue, "Todos")

  datatype ToastKind = Danger | Success | Info

  /** A transient user-facing notification. */
  datatype Toast = Toast(kind: ToastKind, text: string)

  /** The notification raised when the end date precedes the start date. */
  const DateOrderToast: Toast := Toast(Danger, "Data final precisa ser maior que inicial!")

  /** The range check of the report pages: the range is rejected only when
      both bounds are set and the end is strictly before the start. */
  predicate DateOrderViolated(start: Option<Date>, end: Option<Date>)
  {
    end.Some? && start.Some? && end.value < start.value
  }

  /** A date sent to a report service: the formatted date, or the empty
      string when the bound is not set. */
  function DateParam(d: Option<Date>, fmt: Date -> string): string
  {
    match d
    case None => ""
    case Some(v) => fmt(v)
  }
}

=== FILE: discount_chart.dfy ===
/** The paged horizontal bar chart of production discounts: a window of seven
    bars over the labelled values, back/forward controls, a page reset when
    the data changes, label truncation and the axis maximum. */
module DiscountChart {

  import opened Common
  import opened JsValues

  /** Bars per page. */
  const ItemsPerPage: int := 7

  /** Longest label shown in full. */
  const LabelLimit: int := 40

  /** The footer with the paging controls appears only above this many values. */
  const FooterThreshold: int := 5

  /** Props and state of the chart: the labels and values it was given and
      the current page. */
  datatype Chart = Chart(labels: seq<string>, data: seq<int>, page: int)

  /** A user or parent action on the chart. `NewData` is a parent render with
      a new `data` array (new identity, whatever its contents); `NewLabels`
      replaces only the labels. */
  datatype Event = Back | Forward | NewData(labels: seq<string>, data: seq<int>) | NewLabels(labels: seq<string>)

  /** `getHigherValue`: a left fold of `Math.max` seeded with -Infinity. */
  datatype Bound = NegInfinity | Finite(v: int)

  /** The paging footer: whether each control is rendered. */
  datatype Footer = Footer(back: bool, forward: bool)

  /** What the component renders: the empty-state illustration, or the bars
      of the current window with the axis scaled by the largest value. */
  datatype View = EmptyState | Bars(labels: seq<string>, values: seq<int>, axisMax: Bound)

  // ---------------------------------------------------------------------
  // Windowing

  function WindowStart(page: int): int
  {
    page * ItemsPerPage
  }

  /** The values shown on a page: `data.slice(p * 7, p * 7 + 7)`. */
  function Window<T>(s: seq<T>, page: int): seq<T>
  {
    Slice(s, WindowStart(page), WindowStart(page) + ItemsPerPage)
  }

  /** The page invariant: the page is never negative, and any page but the
      first starts inside the data. */
  predicate PageInvariant(c: Chart)
  {
    c.page >= 0 && (c.page == 0 || WindowStart(c.page) < |c.data|)
  }

  /** On a non-negative page the window is exactly the items from `p * 7` up
      to `p * 7 + 7`, cut at the end of the data; it holds at most seven
      items and is non-empty when the page starts inside the data. */
  lemma WindowIsPageSlice<T>(s: seq<T>, page: int)
    requires page >= 0
    ensures Min(WindowStart(page), |s|) <= Min(WindowStart(page) + ItemsPerPage, |s|)
    ensures Window(s, page) == s[Min(WindowStart(page), |s|)..Min(WindowStart(page) + ItemsPerPage, |s|)]
    ensures |Window(s, page)| <= ItemsPerPage
    ensures WindowStart(page) < |s| ==> |Window(s, page)| > 0
  {
  }

  // ---------------------------------------------------------------------
  // Controls and transitions

  predicate ShowFooter(c: Chart)
  {
    |c.data| > FooterThreshold
  }

  /** The footer, rendered above five values: back from the second page on,
      forward while items remain past the window. */
  function Controls(c: Chart): Option<Footer>
  {
    if ShowFooter(c) then
      Some(Footer(c.page > 0, WindowStart(c.page) + ItemsPerPage < |c.data|))
    else None
  }

  predicate BackVisible(c: Chart)
  {
    var f := Controls(c); f.Some? && f.value.back
  }

  predicate ForwardVisible(c: Chart)
  {
    var f := Controls(c); f.Some? && f.value.forward
  }

  /** The chart after an event. A click only reaches a rendered control, so a
      click on a hidden one leaves the chart as it is. A new data array
      resets the page to the first one. */
  function Step(c: Chart, e: Event): Chart
  {
    match e
    case Back => if BackVisible(c) then c.(page := c.page - 1) else c
    case Forward => if ForwardVisible(c) then c.(page := c.page + 1) else c
    case NewData(l, d) => Chart(l, d, 0)
    case NewLabels(l) => c.(labels := l)
  }

  function Run(c: Chart, events: seq<Event>): Chart
    decreases |events|
  {
    if events == [] then c else Run(Step(c, events[0]), events[1..])
  }

  /** The chart as first mounted. */
  function Mount(labels: seq<string>, data: seq<int>): Chart
  {
    Chart(labels, data, 0)
  }

  /** Every event keeps the page invariant. A click on a shown control moves
      exactly one page in its direction, a click on a hidden one changes
      nothing, and clicks never change the data or the labels. */
  lemma StepKeepsInvariant(c: Chart, e: Event)
    requires PageInvariant(c)
    ensures PageInvariant(Step(c, e))
    ensures !e.NewData? ==> Step(c, e).data == c.data
    ensures -1 <= Step(c, e).page - c.page <= 1 || e.NewData?
    ensures e.Back? || e.Forward? ==> Step(c, e).labels == c.labels
    ensures e.Back? && BackVisible(c) ==> Step(c, e).page == c.page - 1
    ensures e.Forward? && ForwardVisible(c) ==> Step(c, e).page == c.page + 1
    ensures (e.Back? && !BackVisible(c)) || (e.Forward? && !ForwardVisible(c)) ==> Step(c, e) == c
  {
  }

  /** New data always shows its own first page: the first seven values,
      whatever page the chart was on. */
  lemma NewDataShowsFirstPage(c: Chart, labels: seq<string>, data: seq<int>)
    ensures Step(c, NewData(labels, data)).data == data
    ensures Window(Step(c, NewData(labels, data)).data, Step(c, NewData(labels, data)).page) == data[..Min(ItemsPerPage, |data|)]
    ensures Window(Step(c, NewData(labels, data)).labels, Step(c, NewData(labels, data)).page) == labels[..Min(ItemsPerPage, |labels|)]
  {
  }

  /** From mount, any sequence of clicks and data changes keeps the page
      non-negative and inside the data, so the visible window is never empty
      while there is data. */
  lemma {:induction false} RunKeepsInvariant(c: Chart, events: seq<Event>)
    requires PageInvariant(c)
    ensures PageInvariant(Run(c, events))
    ensures |Run(c, events).data| > 0 ==> |Window(Run(c, events).data, Run(c, events).page)| > 0
    decreases |events|
  {
    if events == [] {
      if |c.data| > 0 {
        WindowIsPageSlice(c.data, c.page);
      }
    } else {
      StepKeepsInvariant(c, events[0]);
      RunKeepsInvariant(Step(c, events[0]), events[1..]);
    }
  }

  lemma MountedWindowNeverEmpty(labels: seq<string>, data: seq<int>, events: seq<Event>)
    ensures var c := Run(Mount(labels, data), events);
            c.page >= 0 && (|c.data| > 0 ==> |Window(c.data, c.page)| > 0)
  {
    RunKeepsInvariant(Mount(labels, data), events);
  }

  // ---------------------------------------------------------------------
  // Page count

  /** `ceil(len / 7)`, with one (empty) page for no data. */
  function PageCount(len: nat): nat
  {
    if len == 0 then 1 else (len + ItemsPerPage - 1) / ItemsPerPage
  }

  /** The pages the invariant admits are exactly `0 .. PageCount - 1`. */
  lemma InvariantPagesArePageCount(c: Chart)
    requires c.page >= 0
    ensures PageInvariant(c) <==> c.page < PageCount(|c.data|)
  {
  }

  /** The footer is rendered exactly above five values; in it the forward
      control is missing exactly on the last page and the back control
      exactly on the first one. */
  lemma ControlsMarkFirstAndLastPage(c: Chart)
    requires PageInvariant(c)
    ensures Controls(c).Some? <==> |c.data| > FooterThreshold
    ensures ForwardVisible(c) <==> |c.data| > FooterThreshold && c.page < PageCount(|c.data|) - 1
    ensures BackVisible(c) <==> |c.data| > FooterThreshold && c.page != 0
  {
    InvariantPagesArePageCount(c);
  }

  /** Every page below the page count is reached from the first page by
      forward clicks alone. */
  lemma {:induction false} ForwardReachesEveryPage(labels: seq<string>, data: seq<int>, page: nat)
    requires page < PageCount(|data|)
    ensures Run(Mount(labels, data), seq(page, _ => Forward)).page == page
  {
    var c := Mount(labels, data);
    ForwardSteps(c, page);
  }

  lemma {:induction false} ForwardSteps(c: Chart, n: nat)
    requires c.page >= 0 && c.page + n < PageCount(|c.data|)
    ensures Run(c, seq(n, _ => Forward)) == c.(page := c.page + n)
    decreases n
  {
    var events := seq(n, _ => Forward);
    if n > 0 {
      assert events[0] == Forward;
      assert ForwardVisible(c);
      var c1 := Step(c, Forward);
      assert events[1..] == seq(n - 1, _ => Forward);
      ForwardSteps(c1, n - 1);
    }
  }

  // ---------------------------------------------------------------------
  // Axis maximum and labels

  function MaxBound(a: Bound, b: int): Bound
  {
    match a
    case NegInfinity => Finite(b)
    case Finite(v) => if v >= b then Finite(v) else Finite(b)
  }

  predicate AtLeast(m: Bound, x: int)
  {
    m.Finite? && m.v >= x
  }

  function FoldMax(acc: Bound, s: seq<int>): Bound
    decreases |s|
  {
    if s == [] then acc else FoldMax(MaxBound(acc, s[0]), s[1..])
  }

  /** `getHigherValue(arr)`. */
  function HigherValue(s: seq<int>): Bound
  {
    FoldMax(NegInfinity, s)
  }

  lemma {:induction false} FoldMaxIsMax(acc: Bound, s: seq<int>)
    ensures FoldMax(acc, s).NegInfinity? <==> acc.NegInfinity? && s == []
    ensures forall i :: 0 <= i < |s| ==> AtLeast(FoldMax(acc, s), s[i])
    ensures acc.Finite? ==> AtLeast(FoldMax(acc, s), acc.v)
    ensures FoldMax(acc, s).Finite? ==>
              FoldMax(acc, s) == acc || exists i :: 0 <= i < |s| && FoldMax(acc, s).v == s[i]
    decreases |s|
  {
    if s != [] {
      var acc' := MaxBound(acc, s[0]);
      FoldMaxIsMax(acc', s[1..]);
      var r := FoldMax(acc, s);
      assert r == FoldMax(acc', s[1..]);
      forall i | 0 <= i < |s|
        ensures AtLeast(r, s[i])
      {
        if i > 0 {
          assert s[i] == s[1..][i - 1];
        }
      }
      if r.Finite? && r != acc {
        if r == acc' {
          assert r.v == s[0];
        } else {
          var j :| 0 <= j < |s[1..]| && r.v == s[1..][j];
          assert r.v == s[j + 1];
        }
      }
    }
  }

  /** The axis maximum is -Infinity exactly for no data; otherwise it bounds
      every value and is one of them. */
  lemma HigherValueIsMaximum(s: seq<int>)
    ensures HigherValue(s).NegInfinity? <==> s == []
    ensures forall i :: 0 <= i < |s| ==> AtLeast(HigherValue(s), s[i])
    ensures HigherValue(s).Finite? ==> exists i :: 0 <= i < |s| && HigherValue(s).v == s[i]
  {
    FoldMaxIsMax(NegInfinity, s);
  }

  /** A bar label: the first 40 characters, plus "..." when cut. */
  function TruncateLabel(text: string): (r: string)
    ensures |text| <= LabelLimit ==> r == text
    ensures |text| > LabelLimit ==> |r| == LabelLimit + 3 && r[..LabelLimit] == text[..LabelLimit] && r[LabelLimit..] == "..."
  {
    Slice(text, 0, LabelLimit) + (if |text| > LabelLimit then "..." else "")
  }

  /** Truncating twice is truncating once. */
  lemma TruncateIdempotent(text: string)
    ensures TruncateLabel(TruncateLabel(text)) == TruncateLabel(text)
  {
  }

  // ---------------------------------------------------------------------
  // Rendering

  /** The rendered chart: the empty state exactly when there is no data;
      otherwise the window's values, the window's labels truncated, and an
      axis scaled by the largest value of the whole data set (so the scale
      does not change from page to page). */
  function Render(c: Chart): (v: View)
    ensures v.EmptyState? <==> |c.data| == 0
    ensures v.Bars? ==> v.values == Window(c.data, c.page)
    ensures v.Bars? ==> |v.labels| == |Window(c.labels, c.page)|
    ensures v.Bars? ==> forall i :: 0 <= i < |v.labels| ==> v.labels[i] == TruncateLabel(Window(c.labels, c.page)[i])
    ensures v.Bars? ==> v.axisMax == HigherValue(c.data)
  {
    if |c.data| == 0 then EmptyState
    else
      var shown := Window(c.labels, c.page);
      Bars(seq(|shown|, i requires 0 <= i < |shown| => TruncateLabel(shown[i])),
           Window(c.data, c.page),
           HigherValue(c.data))
  }

  /** Every bar of a rendered window fits under the axis maximum, and the
      window has at most seven bars. */
  lemma BarsFitAxis(c: Chart)
    requires PageInvariant(c) && |c.data| > 0
    ensures Render(c).Bars?
    ensures 0 < |Render(c).values| <= ItemsPerPage
    ensures forall i :: 0 <= i < |Render(c).values| ==> AtLeast(Render(c).axisMax, Render(c).values[i])
  {
    WindowIsPageSlice(c.data, c.page);
    HigherValueIsMaximum(c.data);
    var lo := Min(WindowStart(c.page), |c.data|);
    var w := Render(c).values;
    forall i | 0 <= i < |w|
      ensures AtLeast(Render(c).axisMax, w[i])
    {
      assert w[i] == c.data[lo + i];
    }
  }
}

=== FILE: financial_views.dfy ===
/** The financial-indicator listing: a permission-gated load of the views, the
    count caption and the placeholder card shown to users without access. */
module FinancialViews {

  import opened JsValues
  import opened Permissions

  /** The permission that unlocks the indicators. */
  const ViewsPermission: string := "indicadores_financeiros"

  /** A financial indicator as the service lists it. */
  datatype View = View(id: int, nome: string, situacao: int, periodoPadraoMeses: int)

  /** Page state: the views loaded and the loading flag. */
  datatype Page = Page(views: seq<View>, loading: bool)

  /** The page as mounted: no views, loading. */
  const InitialPage: Page := Page([], true)

  /** The card drawn in place of the list when the user lacks access. */
  const Placeholder: View := View(1, "Indicador", 1, 12)

  /** The load effect, with `served` the service's answer if it is asked:
      the views are replaced only with the permission, and loading ends in
      both cases. */
  function Load(p: Page, shell: Shell, served: seq<View>): Page
  {
    if HasPermission(shell, ViewsPermission) then Page(served, false) else p.(loading := false)
  }

  /** Without the permission the views stay empty after loading, whatever
      the service would have answered. */
  lemma DeniedLoadKeepsNoViews(shell: Shell, served: seq<View>)
    requires ViewsPermission !in shell.permissions
    ensures Load(InitialPage, shell, served) == Page([], false)
  {
  }

  const Singular: string := "indicador encontrado"
  const Plural: string := "indicadores encontrados"

  /** The count caption: the number of views and the noun, singular exactly
      for one view. */
  function CountCaption(views: seq<View>): string
  {
    IntToString(|views|) + " " + (if |views| == 1 then Singular else Plural)
  }

  /** The caption states how many views there are: its number reads back as
      the count, and the singular noun is used only for one view. */
  lemma CaptionStatesCount(views: seq<View>)
    ensures var c := CountCaption(views);
            var k := |IntToString(|views|)|;
            |c| > k && ToNumber(c[..k]) == Num(|views|) && c[k] == ' ' &&
            (c[k + 1..] == Singular <==> |views| == 1)
  {
    var c := CountCaption(views);
    var k := |IntToString(|views|)|;
    assert c[..k] == IntToString(|views|);
    NumberOfString(|views|);
    assert Singular != Plural;
  }

  /** The cards rendered: one per view with access, the single placeholder
      without it. */
  function RenderedViews(p: Page, shell: Shell): seq<View>
  {
    if HasPermission(shell, ViewsPermission) then p.views else [Placeholder]
  }

  /** After a load, a user without access sees exactly one placeholder card
      and a caption counting zero views; a user with access sees one card per
      served view. */
  lemma LoadedPageShows(shell: Shell, served: seq<View>)
    ensures InitialPage.loading && !Load(InitialPage, shell, served).loading
    ensures var p := Load(InitialPage, shell, served);
            (ViewsPermission in shell.permissions ==> RenderedViews(p, shell) == served) &&
            (ViewsPermission !in shell.permissions ==>
               RenderedViews(p, shell) == [Placeholder] && CountCaption(p.views) == "0 " + Plural)
  {
    if ViewsPermission !in shell.permissions {
      assert IntToString(0) == "0";
    }
  }
}

=== FILE: fuel_details.dfy ===
/** The fuel-consumption detail page: the filter option lists built from the
    reference services, the filter-to-request reconciliation with its date
    check, the replacement of the detail list on completion, and the layout
    and file name of the spreadsheet export. */
module FuelDetails {

  import opened Common
  import opened JsValues

  /** A reference entity (asset, warehouse, asset type): id and display name. */
  datatype Entity = Entity(id: int, name: string)

  /** One fuel-consumption line as the service returns it. */
  datatype FuelDetail = FuelDetail(
    date: Date,
    numeroRequisicao: int,
    patrimonio: string,
    combustivel: string,
    localSaida: string,
    quantidade: real,
    custoIndividual: real,
    total: real)

  /** The filter state of the page, seeded from the URL. */
  datatype Filters = Filters(
    custo: string,
    start: Option<Date>,
    end: Option<Date>,
    patrimonio: string,
    almoxarifado: string,
    tipoPatrimonio: string)

  /** The argument object of the detail service. */
  datatype DetailsRequest = DetailsRequest(
    custo: string,
    startDate: string,
    endDate: string,
    idPatrimonio: Option<string>,
    idAlmoxarifado: Option<string>,
    idTipoPatrimonio: Option<string>)

  /** Page state: loading flag, the lines on display, the toasts raised. */
  datatype Page = Page(loading: bool, details: seq<FuelDetail>, toasts: seq<Toast>)

  /** The first half of a reconciliation: either the fetch is aborted with
      the page already updated, or a request is issued with the page loading. */
  datatype LoadStart = Aborted(page: Page) | Fetching(page: Page, request: DetailsRequest)

  // ---------------------------------------------------------------------
  // URL parameters and option lists

  /** A date URL parameter: `"_"` means no date, anything else is parsed. */
  function DateFromParam(param: string, parse: string -> Date): (r: Option<Date>)
    ensures r.None? <==> param == AllValue
    ensures r.Some? ==> r.value == parse(param)
  {
    if param == AllValue then None else Some(parse(param))
  }

  /** An option list for a reference entity: the "Todos" sentinel, then one
      entry per entity in service order, valued by the id's decimal text. */
  function EntityOptions(items: seq<Entity>): (r: seq<SelectOption>)
    ensures |r| == |items| + 1
    ensures r[0] == AllOption
    ensures forall i :: 0 <= i < |items| ==> r[i + 1] == SelectOption(IntToString(items[i].id), items[i].name)
  {
    [AllOption] + seq(|items|, i requires 0 <= i < |items| => SelectOption(IntToString(items[i].id), items[i].name))
  }

  /** Each entity's option value reads back as its id, and only the sentinel
      entry carries the "all" value. */
  lemma EntityOptionsIdentifyEntities(items: seq<Entity>, i: int)
    requires 0 <= i < |items|
    ensures EntityOptions(items)[i + 1].value != AllValue
    ensures ToNumber(EntityOptions(items)[i + 1].value) == Num(items[i].id)
  {
    NumberOfString(items[i].id);
  }

  // ---------------------------------------------------------------------
  // Reconciliation

  /** A select value as an optional request field: the sentinel is omitted. */
  function OptionalFilter(selection: string): (r: Option<string>)
    ensures r.None? <==> selection == AllValue
    ensures r.Some? ==> r.value == selection
  {
    if selection != AllValue then Some(selection) else None
  }

  /** The select value an optional request field stands for. */
  function SelectionOf(field: Option<string>): string
  {
    match field
    case None => AllValue
    case Some(v) => v
  }

  /** Choosing the sentinel is the same as leaving the filter out: the field
      determines the selection back for every selection. */
  lemma OptionalFilterRoundTrip(selection: string)
    ensures SelectionOf(OptionalFilter(selection)) == selection
  {
  }

  /** The request built from the filters; dates are formatted `dd-MM-yyyy`
      by `fmt`. */
  function Request(f: Filters, fmt: Date -> string): (r: DetailsRequest)
    ensures r.custo == f.custo
    ensures f.start.None? ==> r.startDate == ""
    ensures f.end.None? ==> r.endDate == ""
    ensures f.start.Some? ==> r.startDate == fmt(f.start.value)
    ensures f.end.Some? ==> r.endDate == fmt(f.end.value)
    ensures SelectionOf(r.idPatrimonio) == f.patrimonio
    ensures SelectionOf(r.idAlmoxarifado) == f.almoxarifado
    ensures SelectionOf(r.idTipoPatrimonio) == f.tipoPatrimonio
  {
    DetailsRequest(
      f.custo,
      DateParam(f.start, fmt),
      DateParam(f.end, fmt),
      OptionalFilter(f.patrimonio),
      OptionalFilter(f.almoxarifado),
      OptionalFilter(f.tipoPatrimonio))
  }

  /** The filter effect up to the service call: a reversed range aborts with
      a danger toast, loading cleared and the lines kept; otherwise the
      request is issued with loading set. */
  function BeginLoad(p: Page, f: Filters, fmt: Date -> string): (r: LoadStart)
    ensures r.Aborted? <==> DateOrderViolated(f.start, f.end)
    ensures r.Aborted? ==> r.page == Page(false, p.details, p.toasts + [DateOrderToast])
    ensures r.Fetching? ==> r.page == p.(loading := true) && r.request == Request(f, fmt)
  {
    if DateOrderViolated(f.start, f.end) then
      Aborted(Page(false, p.details, p.toasts + [DateOrderToast]))
    else
      Fetching(p.(loading := true), Request(f, fmt))
  }

  /** Completion of a fetch: the lines are replaced wholesale, loading ends. */
  function Complete(p: Page, served: seq<FuelDetail>): Page
  {
    Page(false, served, p.toasts)
  }

  /** A whole reconciliation, with `served` the service's answer if asked. */
  function Reconcile(p: Page, f: Filters, fmt: Date -> string, served: seq<FuelDetail>): Page
  {
    match BeginLoad(p, f, fmt)
    case Aborted(p') => p'
    case Fetching(p', _) => Complete(p', served)
  }

  /** Either way a reconciliation ends with loading cleared; the displayed
      lines change only when the range is valid, and then become the
      service's answer. A range with equal bounds is valid. */
  lemma ReconcileOutcome(p: Page, f: Filters, fmt: Date -> string, served: seq<FuelDetail>)
    ensures !Reconcile(p, f, fmt, served).loading
    ensures DateOrderViolated(f.start, f.end) ==> Reconcile(p, f, fmt, served).details == p.details
    ensures !DateOrderViolated(f.start, f.end) ==> Reconcile(p, f, fmt, served).details == served
    ensures f.start.Some? && f.end.Some? && f.start.value == f.end.value ==>
              Reconcile(p, f, fmt, served).details == served
    ensures DateOrderViolated(f.start, f.end) <==> Reconcile(p, f, fmt, served).toasts == p.toasts + [DateOrderToast]
    ensures !DateOrderViolated(f.start, f.end) ==> Reconcile(p, f, fmt, served).toasts == p.toasts
  {
  }

  // ---------------------------------------------------------------------
  // Spreadsheet export

  /** A cell value and its number format. */
  datatype CellValue = Text(s: string) | Number(x: real)
  datatype NumberFormat = General | DateFormat | CurrencyFormat
  datatype Cell = Cell(value: CellValue, z: NumberFormat)

  /** Sheet rows, top to bottom; row `k` of the sequence is spreadsheet row `k + 1`. */
  type Sheet = seq<seq<Cell>>

  const Columns: seq<string> := [
    "DATA", "NUMERO REQUISICAO", "PATRIMONIO", "COMBUSTIVEL",
    "LOCAL DE SAIDA", "LITROS", "CUSTO POR LITRO", "TOTAL"]

  /** Columns A, F, G and H, zero-based. */
  const DateColumn: nat := 0
  const LitersColumn: nat := 5
  const CostColumn: nat := 6
  const TotalColumn: nat := 7

  /** The object written for one line, as key/value pairs in key order; the
      date is already formatted `dd/MM/yyyy` by `fmtSlash`. The sheet takes
      its header from the keys and each data row from the values. */
  function Record(d: FuelDetail, fmtSlash: Date -> string): (r: seq<(string, CellValue)>)
    ensures |r| == |Columns|
    ensures forall j :: 0 <= j < |r| ==> r[j].0 == Columns[j]
  {
    [("DATA", Text(fmtSlash(d.date))),
     ("NUMERO REQUISICAO", Number(d.numeroRequisicao as real)),
     ("PATRIMONIO", Text(d.patrimonio)),
     ("COMBUSTIVEL", Text(d.combustivel)),
     ("LOCAL DE SAIDA", Text(d.localSaida)),
     ("LITROS", Number(d.quantidade)),
     ("CUSTO POR LITRO", Number(d.custoIndividual)),
     ("TOTAL", Number(d.total))]
  }

  /** The line field a column title stands for, if any. */
  function FieldNamed(name: string, d: FuelDetail, fmtSlash: Date -> string): Option<CellValue>
  {
    if name == "DATA" then Some(Text(fmtSlash(d.date)))
    else if name == "NUMERO REQUISICAO" then Some(Number(d.numeroRequisicao as real))
    else if name == "PATRIMONIO" then Some(Text(d.patrimonio))
    else if name == "COMBUSTIVEL" then Some(Text(d.combustivel))
    else if name == "LOCAL DE SAIDA" then Some(Text(d.localSaida))
    else if name == "LITROS" then Some(Number(d.quantidade))
    else if name == "CUSTO POR LITRO" then Some(Number(d.custoIndividual))
    else if name == "TOTAL" then Some(Number(d.total))
    else None
  }

  /** The data row of one line: the record's values, unformatted. Every cell
      holds the field its column is titled with. */
  function DataRow(d: FuelDetail, fmtSlash: Date -> string): (r: seq<Cell>)
    ensures |r| == |Columns|
    ensures forall j :: 0 <= j < |r| ==> r[j].z == General && FieldNamed(Columns[j], d, fmtSlash) == Some(r[j].value)
  {
    var rec := Record(d, fmtSlash);
    seq(|rec|, j requires 0 <= j < |rec| => Cell(rec[j].1, General))
  }

  /** The sheet generated from the lines before any format is applied: the
      header row is taken from the records' keys, so no line gives an empty
      sheet. */
  function RawSheet(details: seq<FuelDetail>, fmtSlash: Date -> string): (r: Sheet)
    ensures details == [] ==> r == []
    ensures details != [] ==> |r| == |details| + 1
    ensures details != [] ==> r[0] == seq(|Columns|, j requires 0 <= j < |Columns| => Cell(Text(Columns[j]), General))
    ensures details != [] ==> forall i :: 1 <= i < |r| ==> r[i] == DataRow(details[i - 1], fmtSlash)
  {
    if details == [] then []
    else
      var keys := Record(details[0], fmtSlash);
      [seq(|keys|, j requires 0 <= j < |keys| => Cell(Text(keys[j].0), General))]
      + seq(|details|, i requires 0 <= i < |details| => DataRow(details[i], fmtSlash))
  }

  function WithFormat(row: seq<Cell>, col: nat, z: NumberFormat): (r: seq<Cell>)
    requires col < |row|
  {
    row[col := row[col].(z := z)]
  }

  /** The format loop: spreadsheet rows 2 to n + 1 get the date format in
      column A and the currency format in columns G and H. */
  method ApplyFormats(sheet: Sheet, n: nat) returns (r: Sheet)
    requires |sheet| == n + 1 || (n == 0 && sheet == [])
    requires forall k :: 1 <= k < |sheet| ==> |sheet[k]| == |Columns|
    ensures |r| == |sheet|
    ensures |sheet| > 0 ==> r[0] == sheet[0]
    ensures forall k :: 1 <= k < |r| ==> |r[k]| == |Columns|
    ensures forall k :: 1 <= k < |r| ==> r[k][DateColumn].z == DateFormat
    ensures forall k :: 1 <= k < |r| ==> r[k][CostColumn].z == CurrencyFormat
    ensures forall k :: 1 <= k < |r| ==> r[k][TotalColumn].z == CurrencyFormat
    ensures forall k, j :: 1 <= k < |r| && 0 <= j < |Columns| ==> r[k][j].value == sheet[k][j].value
    ensures forall k, j :: 1 <= k < |r| && 0 <= j < |Columns| && j != DateColumn && j != CostColumn && j != TotalColumn ==>
              r[k][j] == sheet[k][j]
  {
    r := sheet;
    var i := 2;
    while i <= n + 1
      invariant 2 <= i <= n + 2
      invariant |r| == |sheet|
      invariant |sheet| > 0 ==> r[0] == sheet[0]
      invariant forall k :: 1 <= k < |r| ==> |r[k]| == |Columns|
      invariant forall k :: 1 <= k < i - 1 ==> r[k][DateColumn].z == DateFormat
      invariant forall k :: 1 <= k < i - 1 ==> r[k][CostColumn].z == CurrencyFormat
      invariant forall k :: 1 <= k < i - 1 ==> r[k][TotalColumn].z == CurrencyFormat
      invariant forall k :: i - 1 <= k < |r| ==> r[k] == sheet[k]
      invariant forall k, j :: 1 <= k < |r| && 0 <= j < |Columns| ==> r[k][j].value == sheet[k][j].value
      invariant forall k, j :: 1 <= k < |r| && 0 <= j < |Columns| && j != DateColumn && j != CostColumn && j != TotalColumn ==>
                  r[k][j] == sheet[k][j]
    {
      var row := r[i - 1];
      row := WithFormat(row, DateColumn, DateFormat);
      row := WithFormat(row, CostColumn, CurrencyFormat);
      row := WithFormat(row, TotalColumn, CurrencyFormat);
      r := r[i - 1 := row];
      i := i + 1;
    }
  }

  /** The exported sheet: one header row and one row per line, in the order
      of the lines, with the date and currency formats on every data row. */
  method ExportSheet(details: seq<FuelDetail>, fmtSlash: Date -> string) returns (r: Sheet)
    ensures details == [] ==> r == []
    ensures details != [] ==> |r| == |details| + 1
    ensures details != [] ==> |r[0]| == |Columns| && forall j :: 0 <= j < |Columns| ==> r[0][j].value == Text(Columns[j])
    ensures forall k :: 1 <= k < |r| ==> |r[k]| == |Columns|
    ensures forall k :: 1 <= k < |r| ==> r[k][DateColumn] == Cell(Text(fmtSlash(details[k - 1].date)), DateFormat)
    ensures forall k :: 1 <= k < |r| ==> r[k][CostColumn] == Cell(Number(details[k - 1].custoIndividual), CurrencyFormat)
    ensures forall k :: 1 <= k < |r| ==> r[k][TotalColumn] == Cell(Number(details[k - 1].total), CurrencyFormat)
    ensures forall k, j :: 1 <= k < |r| && 0 <= j < |Columns| ==> r[k][j].value == DataRow(details[k - 1], fmtSlash)[j].value
    ensures forall k :: 1 <= k < |r| ==> r[k][LitersColumn] == Cell(Number(details[k - 1].quantidade), General)
  {
    var raw := RawSheet(details, fmtSlash);
    r := ApplyFormats(raw, |details|);
  }

  /** The download name: `RESUMO POR COMBUSTIVEL <start> À <end>.xlsx`, each
      bound formatted `dd-MM-yyyy` or `-` when not set. */
  function ExportFileName(start: Option<Date>, end: Option<Date>, fmt: Date -> string): string
  {
    FileNamePrefix + BoundText(start, fmt) + Separator + BoundText(end, fmt) + Extension
  }

  const FileNamePrefix: string := "RESUMO POR COMBUSTIVEL "
  const Separator: string := " À "
  const Extension: string := ".xlsx"
  const NoDate: string := "-"

  function BoundText(d: Option<Date>, fmt: Date -> string): string
  {
    match d
    case None => NoDate
    case Some(v) => fmt(v)
  }

  /** A `dd-MM-yyyy` text: ten characters, the first a digit. */
  predicate IsDayText(s: string)
  {
    |s| == 10 && IsDigit(s[0])
  }

  /** Reads the two bounds back from a download name: `None` for `-`,
      otherwise the date text. */
  function ParseFileName(name: string): Option<(Option<string>, Option<string>)>
  {
    var p := |FileNamePrefix|;
    var x := |Extension|;
    if |name| < p + x || name[..p] != FileNamePrefix || name[|name| - x..] != Extension then None
    else
      var middle := name[p..|name| - x];
      var startLen := if |middle| > 0 && middle[0] == '-' then 1 else 10;
      if |middle| < startLen + |Separator| || middle[startLen..startLen + |Separator|] != Separator then None
      else
        var startText := middle[..startLen];
        var endText := middle[startLen + |Separator|..];
        Some((if startText == NoDate then None else Some(startText),
              if endText == NoDate then None else Some(endText)))
  }

  function FormattedBound(d: Option<Date>, fmt: Date -> string): Option<string>
  {
    match d
    case None => None
    case Some(v) => Some(fmt(v))
  }

  /** The URL dates reach the request and the download name consistently: a
      `"_"` date is sent as `""` and written as `-`, which reads back as no
      bound; a set date is sent and written in the same formatted text. */
  lemma UrlDatesReachRequestAndFileName(f: Filters, startParam: string, endParam: string,
                                        parse: string -> Date, fmt: Date -> string)
    requires f.start == DateFromParam(startParam, parse) && f.end == DateFromParam(endParam, parse)
    requires startParam != AllValue ==> IsDayText(fmt(parse(startParam)))
    requires endParam != AllValue ==> IsDayText(fmt(parse(endParam)))
    ensures startParam == AllValue ==> Request(f, fmt).startDate == ""
    ensures endParam == AllValue ==> Request(f, fmt).endDate == ""
    ensures var bounds := ParseFileName(ExportFileName(f.start, f.end, fmt));
            bounds.Some? &&
            (bounds.value.0.None? <==> startParam == AllValue) &&
            (bounds.value.1.None? <==> endParam == AllValue) &&
            (startParam != AllValue ==> bounds.value.0 == Some(Request(f, fmt).startDate)) &&
            (endParam != AllValue ==> bounds.value.1 == Some(Request(f, fmt).endDate))
  {
    FileNameRecordsRange(f.start, f.end, fmt);
  }

  /** When dates format as `dd-MM-yyyy`, the download name records the range:
      both bounds, and which of them were set, are read back from it. */
  lemma FileNameRecordsRange(start: Option<Date>, end: Option<Date>, fmt: Date -> string)
    requires start.Some? ==> IsDayText(fmt(start.value))
    requires end.Some? ==> IsDayText(fmt(end.value))
    ensures ParseFileName(ExportFileName(start, end, fmt)) == Some((FormattedBound(start, fmt), FormattedBound(end, fmt)))
  {
    var s := BoundText(start, fmt);
    var e := BoundText(end, fmt);
    var name := ExportFileName(start, end, fmt);
    var p := |FileNamePrefix|;
    var x := |Extension|;
    assert name == FileNamePrefix + (s + Separator + e) + Extension;
    assert name[..p] == FileNamePrefix;
    assert name[|name| - x..] == Extension;
    var middle := name[p..|name| - x];
    assert middle == s + Separator + e;
    assert |s| > 0 && (middle[0] == '-' <==> start.None?) by {
      assert middle[0] == s[0];
    }
    assert middle[..|s|] == s;
    assert middle[|s|..|s| + |Separator|] == Separator;
    assert middle[|s| + |Separator|..] == e;
  }
}

=== FILE: js_values.dfy ===
/** The few JavaScript built-ins whose exact behaviour the report pages rely
    on: `String(n)` and `Number(s)` for integer ids, `Array.prototype.join`
    with a comma, `slice` on arrays and strings, and string truthiness. */
module JsValues {

  import opened Common

  /** The result of `Number(s)`: an integer, or NaN. */
  datatype JsNumber = NaN | Num(n: int)

  /** JavaScript strict equality on numbers: NaN equals nothing. */
  predicate NumberEquals(a: JsNumber, b: int)
  {
    a.Num? && a.n == b
  }

  /** A string or `null`/`undefined` is truthy iff it is present and non-empty. */
  predicate Truthy(s: Option<string>)
  {
    s.Some? && s.value != ""
  }

  // ---------------------------------------------------------------------
  // Decimal text of integers: String(n) and Number(s)

  predicate IsDigit(c: char)
  {
    '0' <= c <= '9'
  }

  predicate AllDigits(s: string)
  {
    forall i :: 0 <= i < |s| ==> IsDigit(s[i])
  }

  function DigitChar(d: nat): char
    requires d < 10
  {
    "0123456789"[d]
  }

  function DigitValue(c: char): nat
    requires IsDigit(c)
  {
    (c as int - '0' as int) as nat
  }

  /** Shortest decimal text of a natural number, most significant digit first. */
  function NatToString(n: nat): (r: string)
    ensures |r| > 0 && AllDigits(r)
    decreases n
  {
    if n < 10 then [DigitChar(n)] else NatToString(n / 10) + [DigitChar(n % 10)]
  }

  /** Value of a digit string read left to right. */
  function DigitsValue(s: string): nat
    requires AllDigits(s)
    decreases |s|
  {
    if s == [] then 0 else DigitsValue(s[..|s| - 1]) * 10 + DigitValue(s[|s| - 1])
  }

  /** `String(n)` for an integer `n`. */
  function IntToString(n: int): (r: string)
    ensures |r| > 0
    ensures n >= 0 <==> r[0] != '-'
  {
    if n < 0 then "-" + NatToString(-n) else NatToString(n)
  }

  /** `Number(s)` restricted to decimal integer text: the empty string is 0,
      an optional sign followed by at least one digit is that integer, and
      every other string is NaN. */
  function ToNumber(s: string): (r: JsNumber)
    ensures s == AllValue ==> r == NaN
  {
    if s == "" then Num(0)
    else if AllDigits(s) then Num(DigitsValue(s))
    else if (s[0] == '-' || s[0] == '+') && |s| > 1 && AllDigits(s[1..]) then
      (if s[0] == '-' then Num(-(DigitsValue(s[1..]) as int)) else Num(DigitsValue(s[1..])))
    else NaN
  }

  lemma {:induction false} DigitsOfNat(n: nat)
    ensures DigitsValue(NatToString(n)) == n
    decreases n
  {
    var s := NatToString(n);
    if n < 10 {
      assert s[..|s| - 1] == [];
    } else {
      DigitsOfNat(n / 10);
      assert s[..|s| - 1] == NatToString(n / 10);
    }
  }

  /** `Number(String(n)) === n` for every integer id. */
  lemma NumberOfString(n: int)
    ensures ToNumber(IntToString(n)) == Num(n)
  {
    var s := IntToString(n);
    if n < 0 {
      DigitsOfNat(-n);
      assert s[1..] == NatToString(-n);
      assert !AllDigits(s) by { assert !IsDigit(s[0]); }
    } else {
      DigitsOfNat(n);
    }
  }

  // ---------------------------------------------------------------------
  // Array.prototype.join(",") and its inverse String.prototype.split(",")

  const Comma: char := ','

  /** `xs.join(",")`: the empty array joins to the empty string. */
  function Join(xs: seq<string>): string
    decreases |xs|
  {
    if xs == [] then ""
    else if |xs| == 1 then xs[0]
    else xs[0] + [Comma] + Join(xs[1..])
  }

  /** `s.split(",")`: the pieces between commas, at least one. */
  function Split(s: string): (r: seq<string>)
    ensures |r| > 0
    decreases |s|
  {
    if Comma !in s then [s]
    else
      var i := FirstIndexOf(s, Comma);
      [s[..i]] + Split(s[i + 1..])
  }

  function FirstIndexOf(s: string, c: char): (i: nat)
    requires c in s
    ensures i < |s| && s[i] == c && c !in s[..i]
  {
    if s[0] == c then 0 else 1 + FirstIndexOf(s[1..], c)
  }

  /** Splitting the comma-join of a non-empty list of comma-free ids gives the
      list back: the service receives exactly the ids the page holds. */
  lemma {:induction false} SplitJoin(xs: seq<string>)
    requires |xs| > 0
    requires forall i :: 0 <= i < |xs| ==> Comma !in xs[i]
    ensures Split(Join(xs)) == xs
    decreases |xs|
  {
    if |xs| == 1 {
    } else {
      var s := Join(xs);
      var a := xs[0];
      assert s == a + [Comma] + Join(xs[1..]);
      assert Comma in s by { assert s[|a|] == Comma; }
      var i := FirstIndexOf(s, Comma);
      assert i == |a| by {
        assert s[..|a|] == a;
        assert s[|a|] == Comma;
      }
      assert s[..i] == a;
      assert s[i + 1..] == Join(xs[1..]);
      SplitJoin(xs[1..]);
    }
  }

  // ---------------------------------------------------------------------
  // Array.prototype.slice / String.prototype.slice

  /** Where a `slice` argument lands: negative values count from the end,
      and the result is clamped to `[0, len]`. */
  function SliceIndex(k: int, len: nat): (r: nat)
    ensures r <= len
  {
    if k < 0 then (if len + k < 0 then 0 else len + k)
    else if k > len then len
    else k
  }

  /** `s.slice(start, end)`. */
  function Slice<T>(s: seq<T>, start: int, end: int): seq<T>
  {
    var b := SliceIndex(start, |s|);
    var e := SliceIndex(end, |s|);
    if e <= b then [] else s[b..e]
  }

  function Min(a: int, b: int): int
  {
    if a <= b then a else b
  }

  /** With non-negative bounds a slice is the sub-sequence between the bounds,
      each clamped to the length. */
  lemma SliceNonNegative<T>(s: seq<T>, start: int, end: int)
    requires 0 <= start <= end
    ensures Min(start, |s|) <= Min(end, |s|)
    ensures Slice(s, start, end) == s[Min(start, |s|)..Min(end, |s|)]
    ensures |Slice(s, start, end)| <= end - start
  {
  }
}

=== FILE: permissions.dfy ===
/** The application shell's permission gate: the permission list held by the
    root component, the one-time load keyed by the URL's user id and tenant
    name, and the `hasPermission` membership test every page consults. */
module Permissions {

  import opened Common
  import opened JsValues

  type PermissionCode = string

  /** The URL query parameters the shell reads (`null` when absent). */
  datatype Query = Query(idUsuario: Option<string>, dbNome: Option<string>)

  /** Arguments of the identity service's permission lookup. */
  datatype PermissionRequest = PermissionRequest(userId: JsNumber, databaseName: Option<string>)

  /** State of the root component: the permission list, whether the first
      render has happened, and the lookups issued so far. */
  datatype Shell = Shell(permissions: seq<PermissionCode>, rendered: bool, requests: seq<PermissionRequest>)

  /** The shell before its first render: no permissions, no lookups. */
  const InitialShell: Shell := Shell([], false, [])

  /** `permissions.includes(code)`, scanning the list from the front. */
  function Includes(permissions: seq<PermissionCode>, code: PermissionCode): (r: bool)
    ensures r <==> exists i :: 0 <= i < |permissions| && permissions[i] == code
    decreases |permissions|
  {
    if permissions == [] then false
    else permissions[0] == code || Includes(permissions[1..], code)
  }

  /** The gate offered to every page. */
  function HasPermission(shell: Shell, code: PermissionCode): (r: bool)
    ensures r <==> code in shell.permissions
  {
    Includes(shell.permissions, code)
  }

  /** Before any lookup has completed the gate is closed for every code. */
  lemma FailsClosed(code: PermissionCode)
    ensures !HasPermission(InitialShell, code)
  {
  }

  /** The lookup the shell issues for a query, if any: only on the first
      render and only when the user id is truthy; the database name is
      passed only when truthy and the user id goes through `Number`. */
  function LoadRequest(firstRender: bool, query: Query): (r: Option<PermissionRequest>)
    ensures r.Some? <==> firstRender && Truthy(query.idUsuario)
    ensures r.Some? ==> r.value.userId == ToNumber(query.idUsuario.value)
    ensures r.Some? ==> (r.value.databaseName.Some? <==> Truthy(query.dbNome))
    ensures r.Some? && Truthy(query.dbNome) ==> r.value.databaseName == query.dbNome
  {
    if firstRender && Truthy(query.idUsuario) then
      Some(PermissionRequest(
        ToNumber(query.idUsuario.value),
        if Truthy(query.dbNome) then query.dbNome else None))
    else None
  }

  /** One render of the shell followed by its effect. `served` is what the
      identity service answers if a lookup is issued; the list is then
      replaced by a copy of that answer. */
  function Render(shell: Shell, query: Query, served: seq<PermissionCode>): (r: Shell)
    ensures r.rendered
    ensures |r.requests| <= |shell.requests| + 1
    ensures |r.requests| == |shell.requests| + 1 ==> !shell.rendered && r.permissions == served
    ensures |r.requests| == |shell.requests| ==> r.permissions == shell.permissions
    ensures !shell.rendered && Truthy(query.idUsuario) ==>
              r.requests == shell.requests + [LoadRequest(true, query).value] && r.permissions == served
  {
    match LoadRequest(!shell.rendered, query)
    case None => shell.(rendered := true)
    case Some(req) => Shell(served, true, shell.requests + [req])
  }

  /** A session: successive renders, each with the query and service answer
      current at that render. */
  function RunSession(shell: Shell, renders: seq<(Query, seq<PermissionCode>)>): Shell
    decreases |renders|
  {
    if renders == [] then shell
    else RunSession(Render(shell, renders[0].0, renders[0].1), renders[1..])
  }

  /** However many times the shell re-renders, at most one permission lookup
      is ever issued, and without one the gate stays closed. */
  lemma {:induction false} AtMostOneLoad(renders: seq<(Query, seq<PermissionCode>)>)
    ensures |RunSession(InitialShell, renders).requests| <= 1
    ensures RunSession(InitialShell, renders).requests == [] ==>
              RunSession(InitialShell, renders).permissions == []
  {
    if renders != [] {
      var s1 := Render(InitialShell, renders[0].0, renders[0].1);
      AfterFirstRender(s1, renders[1..]);
    }
  }

  /** Once the first render is behind, further renders change nothing but
      leave the shell as it was. */
  lemma {:induction false} AfterFirstRender(shell: Shell, renders: seq<(Query, seq<PermissionCode>)>)
    requires shell.rendered
    ensures RunSession(shell, renders) == shell
    decreases |renders|
  {
    if renders != [] {
      AfterFirstRender(Render(shell, renders[0].0, renders[0].1), renders[1..]);
    }
  }

  /** A session whose first render carries no user id never loads a
      permission: every page stays gated. */
  lemma NoUserNoPermissions(renders: seq<(Query, seq<PermissionCode>)>, code: PermissionCode)
    requires |renders| > 0 && !Truthy(renders[0].0.idUsuario)
    ensures !HasPermission(RunSession(InitialShell, renders), code)
  {
    var s1 := Render(InitialShell, renders[0].0, renders[0].1);
    AfterFirstRender(s1, renders[1..]);
  }

  /** A session whose first render carries a user id issues exactly that
      render's lookup, and from then on the gate answers from the service's
      reply to it. */
  lemma {:induction false} UserLoadsPermissions(renders: seq<(Query, seq<PermissionCode>)>, code: PermissionCode)
    requires |renders| > 0 && Truthy(renders[0].0.idUsuario)
    ensures RunSession(InitialShell, renders).requests == [LoadRequest(true, renders[0].0).value]
    ensures HasPermission(RunSession(InitialShell, renders), code) <==> code in renders[0].1
  {
    var s1 := Render(InitialShell, renders[0].0, renders[0].1);
    AfterFirstRender(s1, renders[1..]);
  }
}

=== FILE: producer_scale.dfy ===
/** The per-producer grain-stock drill-down: the producer option list and its
    default selection, the lookup of the selected producer with a zeroed
    fallback, the permission overlay and the image download name. */
module ProducerScale {

  import opened Common
  import opened JsValues
  import opened Permissions

  /** The permission that unlocks the drill-down. */
  const DetailPermission: string := "estoque_graos_produtor"

  /** Incoming movements of a producer, in kilograms. */
  datatype Entries = Entries(
    peso: real,
    descontoClassificacao: real,
    taxaRecepcao: real,
    cotaCapital: real,
    taxaArmazenamento: real,
    quebraTecnica: real,
    pesoLiquido: real)

  /** Outgoing movements of a producer, in kilograms. */
  datatype Exits = Exits(peso: real, descontoClassificacao: real, pesoLiquido: real)

  /** The stock ledger of one producer. */
  datatype ProducerStock = ProducerStock(
    saldoAnterior: real,
    saldoFinal: real,
    idProdutor: int,
    produtor: string,
    entradas: Entries,
    saidas: Exits)

  /** The record shown when no producer matches the selection. */
  const NoProducer: ProducerStock := ProducerStock(
    0.0, 0.0, 0, "NENHUM",
    Entries(0.0, 0.0, 0.0, 0.0, 0.0, 0.0, 0.0),
    Exits(0.0, 0.0, 0.0))

  /** The selection before the options are built. */
  const InitialSelection: string := AllValue

  /** The options memo: one option per producer in order, valued by the id's
      decimal text, and the selection moved to the first producer. The first
      producer is read unconditionally, so the list must not be empty. */
  function ProducerOptions(stocks: seq<ProducerStock>): (r: (seq<SelectOption>, string))
    requires |stocks| > 0
    ensures |r.0| == |stocks|
    ensures forall i :: 0 <= i < |stocks| ==> r.0[i] == SelectOption(IntToString(stocks[i].idProdutor), stocks[i].produtor)
    ensures r.1 == r.0[0].value
  {
    (seq(|stocks|, i requires 0 <= i < |stocks| => SelectOption(IntToString(stocks[i].idProdutor), stocks[i].produtor)),
     IntToString(stocks[0].idProdutor))
  }

  /** `stocks.find(item => item.idProdutor === id)`: the first match. */
  function FindProducer(stocks: seq<ProducerStock>, id: JsNumber): (r: Option<nat>)
    ensures r.Some? ==> r.value < |stocks| && NumberEquals(id, stocks[r.value].idProdutor)
    ensures r.Some? ==> forall j :: 0 <= j < r.value ==> !NumberEquals(id, stocks[j].idProdutor)
    ensures r.None? ==> forall j :: 0 <= j < |stocks| ==> !NumberEquals(id, stocks[j].idProdutor)
    decreases |stocks|
  {
    if stocks == [] then None
    else if NumberEquals(id, stocks[0].idProdutor) then Some(0)
    else
      match FindProducer(stocks[1..], id)
      case None => None
      case Some(k) => Some(k + 1)
  }

  /** The selected producer's ledger: the first producer whose id equals
      `Number(selected)`, or the zeroed `NENHUM` record when none does. */
  function SelectedStock(stocks: seq<ProducerStock>, selected: string): (r: ProducerStock)
    ensures r in stocks || r == NoProducer
    ensures (exists i :: 0 <= i < |stocks| && NumberEquals(ToNumber(selected), stocks[i].idProdutor)) ==>
              NumberEquals(ToNumber(selected), r.idProdutor)
    ensures (forall i :: 0 <= i < |stocks| ==> !NumberEquals(ToNumber(selected), stocks[i].idProdutor)) ==>
              r == NoProducer
  {
    match FindProducer(stocks, ToNumber(selected))
    case None => NoProducer
    case Some(k) => stocks[k]
  }

  /** The lookup returns the earliest match: no earlier producer carries the
      selected id. */
  lemma SelectedStockIsFirstMatch(stocks: seq<ProducerStock>, selected: string, i: int)
    requires 0 <= i < |stocks| && NumberEquals(ToNumber(selected), stocks[i].idProdutor)
    ensures exists k :: 0 <= k <= i && SelectedStock(stocks, selected) == stocks[k] &&
              forall j :: 0 <= j < k ==> !NumberEquals(ToNumber(selected), stocks[j].idProdutor)
  {
  }

  /** Before the options memo moves it, the `"_"` selection reads as NaN and
      matches no producer, so the zeroed record is shown. */
  lemma InitialSelectionShowsFallback(stocks: seq<ProducerStock>)
    ensures SelectedStock(stocks, InitialSelection) == NoProducer
  {
  }

  /** Once the options are built, the default selection shows the first
      producer's own ledger. */
  lemma DefaultSelectionShowsFirstProducer(stocks: seq<ProducerStock>)
    requires |stocks| > 0
    ensures SelectedStock(stocks, ProducerOptions(stocks).1) == stocks[0]
  {
    NumberOfString(stocks[0].idProdutor);
  }

  /** Choosing any producer's option shows a ledger carrying that producer's
      id: the option values read back as the ids they were built from. */
  lemma OptionSelectsItsProducer(stocks: seq<ProducerStock>, i: int)
    requires 0 <= i < |stocks|
    ensures SelectedStock(stocks, ProducerOptions(stocks).0[i].value).idProdutor == stocks[i].idProdutor
    ensures SelectedStock(stocks, ProducerOptions(stocks).0[i].value) in stocks
  {
    NumberOfString(stocks[i].idProdutor);
  }

  /** The not-allowed overlay is drawn exactly without the permission. */
  function ShowNotAllowed(shell: Shell): (r: bool)
    ensures r <==> DetailPermission !in shell.permissions
  {
    !HasPermission(shell, DetailPermission)
  }

  /** The label of the first option carrying a value, if any. */
  function OptionText(options: seq<SelectOption>, value: string): (r: Option<string>)
    ensures r.Some? ==> exists i :: 0 <= i < |options| && options[i].value == value && options[i].text == r.value &&
                                    (forall j :: 0 <= j < i ==> options[j].value != value)
    ensures r.None? <==> forall i :: 0 <= i < |options| ==> options[i].value != value
    decreases |options|
  {
    if options == [] then None
    else if options[0].value == value then Some(options[0].text)
    else OptionText(options[1..], value)
  }

  const DownloadPrefix: string := "SALDO "
  const DownloadSuffix: string := " - VIS??O DETALHADA"

  /** The image download name: the selected option's label between the fixed
      prefix and suffix, or nothing between them when no option matches. */
  function DownloadName(options: seq<SelectOption>, selected: string): string
  {
    var shown := OptionText(options, selected);
    DownloadPrefix + (if shown.Some? then shown.value else "") + DownloadSuffix
  }

  /** With the default selection the download is named after the first
      producer. */
  lemma DefaultDownloadNamesFirstProducer(stocks: seq<ProducerStock>)
    requires |stocks| > 0
    ensures var (options, selected) := ProducerOptions(stocks);
            DownloadName(options, selected) == DownloadPrefix + stocks[0].produtor + DownloadSuffix
  {
  }

  /** The option found for a value is the first one carrying it. */
  lemma {:induction false} OptionTextIsFirstMatch(options: seq<SelectOption>, value: string, i: int)
    requires 0 <= i < |options| && options[i].value == value
    requires forall j :: 0 <= j < i ==> options[j].value != value
    ensures OptionText(options, value) == Some(options[i].text)
    decreases i
  {
    if i > 0 {
      var rest := options[1..];
      assert options[0].value != value;
      forall j | 0 <= j < i - 1
        ensures rest[j].value != value
      {
        assert rest[j] == options[j + 1];
      }
      OptionTextIsFirstMatch(rest, value, i - 1);
    }
  }

  /** The download name always carries the fixed prefix and suffix. In
      between stands the label of the first option with the selected value,
      or nothing when no option has it. */
  lemma DownloadNameShape(options: seq<SelectOption>, selected: string)
    ensures var name := DownloadName(options, selected);
            |name| >= |DownloadPrefix| + |DownloadSuffix| &&
            name[..|DownloadPrefix|] == DownloadPrefix &&
            name[|name| - |DownloadSuffix|..] == DownloadSuffix
    ensures var name := DownloadName(options, selected);
            var middle := name[|DownloadPrefix|..|name| - |DownloadSuffix|];
            (forall i :: 0 <= i < |options| ==> options[i].value != selected) ==> middle == ""
    ensures var name := DownloadName(options, selected);
            var middle := name[|DownloadPrefix|..|name| - |DownloadSuffix|];
            forall i :: (0 <= i < |options| && options[i].value == selected &&
                        (forall j :: 0 <= j < i ==> options[j].value != selected)) ==>
                          middle == options[i].text
  {
    forall i | 0 <= i < |options| && options[i].value == selected &&
               (forall j :: 0 <= j < i ==> options[j].value != selected)
    {
      OptionTextIsFirstMatch(options, selected, i);
    }
  }
}

=== FILE: talhao_cost.dfy ===
/** The production-cost card per field (talhão): the crop-season selection
    and its reset, the guarded load (permission, empty season list, date
    order, season-id join) and the choice of figure by cost basis. */
module TalhaoCost {

  import opened Common
  import opened JsValues
  import opened Permissions

  /** The permission that unlocks the card. */
  const CardPermission: string := "custo_producao_talhao"

  /** One field/variety line of the cost report. */
  datatype CostLine = CostLine(talhaoVariedade: string, safra: string, total: real, totalPorHectare: real, porcentagem: real)

  /** The cost report: totals and the per-field lines. */
  datatype CostReport = CostReport(totalCusto: real, totalCustoPorHectare: real, totalCustoTalhao: seq<CostLine>)

  /** What the parent page passes down. */
  datatype Props = Props(safraIds: seq<string>, unit: string, safraOptions: seq<SelectOption>, start: Option<Date>, end: Option<Date>)

  /** Card state: loading flag, selected crop season, report, toasts raised. */
  datatype Card = Card(loading: bool, selectedSafra: string, cost: CostReport, toasts: seq<Toast>)

  /** Arguments of the cost service. */
  datatype CostRequest = CostRequest(safraId: string, startDate: string, endDate: string)

  /** The first half of a load: finished without a fetch, or fetching. */
  datatype LoadStart = Settled(card: Card) | Fetching(card: Card, request: CostRequest)

  /** The report shown before any load: zero totals and no lines. */
  const EmptyReport: CostReport := CostReport(0.0, 0.0, [])

  /** The card as mounted: loading, every selected season, empty report. */
  const InitialCard: Card := Card(true, AllValue, EmptyReport, [])

  /** The mounted card shows zero totals and no field at all. */
  lemma InitialCardIsEmpty()
    ensures InitialCard.cost.totalCusto == 0.0 && InitialCard.cost.totalCustoPorHectare == 0.0
    ensures |InitialCard.cost.totalCustoTalhao| == 0
    ensures InitialCard.selectedSafra == AllValue && InitialCard.loading
  {
  }

  // ---------------------------------------------------------------------
  // Loading

  /** The season id sent to the service: every season of the page joined by
      commas when all are selected, otherwise the selected one. */
  function SafraParam(selected: string, safraIds: seq<string>): string
  {
    if selected == AllValue then Join(safraIds) else selected
  }

  /** The service reads back exactly the seasons the selection stands for:
      the whole list for the sentinel, the single selected season otherwise. */
  lemma SafraParamNamesSelection(selected: string, safraIds: seq<string>)
    requires |safraIds| > 0
    requires forall i :: 0 <= i < |safraIds| ==> Comma !in safraIds[i]
    requires Comma !in selected
    ensures selected == AllValue ==> Split(SafraParam(selected, safraIds)) == safraIds
    ensures selected != AllValue ==> Split(SafraParam(selected, safraIds)) == [selected]
  {
    if selected == AllValue {
      SplitJoin(safraIds);
    } else {
      SplitJoin([selected]);
    }
  }

  /** The load effect up to the service call. Without the permission nothing
      is fetched and loading ends; with no season it ends too; a reversed
      range raises the danger toast; otherwise the request is issued. */
  function BeginLoad(c: Card, props: Props, shell: Shell, fmt: Date -> string): (r: LoadStart)
    ensures r.Fetching? <==> HasPermission(shell, CardPermission) && |props.safraIds| > 0 && !DateOrderViolated(props.start, props.end)
    ensures r.Settled? ==> !r.card.loading && r.card.cost == c.cost && r.card.selectedSafra == c.selectedSafra
    ensures r.Settled? ==> (r.card.toasts == c.toasts + [DateOrderToast] <==> HasPermission(shell, CardPermission) && |props.safraIds| > 0 && DateOrderViolated(props.start, props.end))
    ensures r.Settled? && !(HasPermission(shell, CardPermission) && |props.safraIds| > 0) ==> r.card.toasts == c.toasts
    ensures r.Fetching? ==> r.card == c.(loading := true)
    ensures r.Fetching? ==> r.request.safraId == SafraParam(c.selectedSafra, props.safraIds)
    ensures r.Fetching? ==> r.request.startDate == DateParam(props.start, fmt) && r.request.endDate == DateParam(props.end, fmt)
  {
    if !HasPermission(shell, CardPermission) then Settled(c.(loading := false))
    else if |props.safraIds| == 0 then Settled(c.(loading := false))
    else if DateOrderViolated(props.start, props.end) then
      Settled(c.(loading := false, toasts := c.toasts + [DateOrderToast]))
    else
      Fetching(c.(loading := true),
               CostRequest(SafraParam(c.selectedSafra, props.safraIds), DateParam(props.start, fmt), DateParam(props.end, fmt)))
  }

  /** Completion: the report is replaced by the answer and loading ends. */
  function Complete(c: Card, served: CostReport): Card
  {
    c.(cost := served, loading := false)
  }

  /** A whole load, with `served` the service's answer if asked. */
  function Reconcile(c: Card, props: Props, shell: Shell, fmt: Date -> string, served: CostReport): Card
  {
    match BeginLoad(c, props, shell, fmt)
    case Settled(c') => c'
    case Fetching(c', _) => Complete(c', served)
  }

  /** Every load ends with loading cleared and the selection kept; the report
      becomes the answer exactly when a fetch was made, and is otherwise
      kept, in particular without the permission and with no season. */
  lemma ReconcileOutcome(c: Card, props: Props, shell: Shell, fmt: Date -> string, served: CostReport)
    ensures !Reconcile(c, props, shell, fmt, served).loading
    ensures Reconcile(c, props, shell, fmt, served).selectedSafra == c.selectedSafra
    ensures BeginLoad(c, props, shell, fmt).Fetching? ==> Reconcile(c, props, shell, fmt, served).cost == served
    ensures BeginLoad(c, props, shell, fmt).Settled? ==> Reconcile(c, props, shell, fmt, served).cost == c.cost
    ensures CardPermission !in shell.permissions || |props.safraIds| == 0 ==>
              Reconcile(c, props, shell, fmt, served) == c.(loading := false)
  {
  }

  // ---------------------------------------------------------------------
  // Season list change

  /** The request a load would issue with a given selection, if any. */
  function RequestFor(selected: string, props: Props, shell: Shell, fmt: Date -> string): Option<CostRequest>
  {
    var c := Card(false, selected, EmptyReport, []);
    match BeginLoad(c, props, shell, fmt)
    case Settled(_) => None
    case Fetching(_, req) => Some(req)
  }

  /** The requests issued when the parent passes a new season list, as the
      card is written: in that commit the reset effect only schedules the
      selection back to `"_"`, so the load effect of the same commit still
      sees the previous selection; if the selection then changes, a second
      load follows with `"_"`. */
  function RequestsOnNewSeasons(previous: string, props: Props, shell: Shell, fmt: Date -> string): seq<CostRequest>
  {
    var first := RequestFor(previous, props, shell, fmt);
    var second := if previous != AllValue then RequestFor(AllValue, props, shell, fmt) else None;
    (if first.Some? then [first.value] else []) + (if second.Some? then [second.value] else [])
  }

  /** A previously selected season that is not part of the new list is still
      requested: with season "5" selected and the list changed to ["7"], the
      first request asks for "5". */
  lemma StaleSeasonRequested(fmt: Date -> string)
    ensures var props := Props(["7"], "cost", [], None, None);
            var rs := RequestsOnNewSeasons("5", props, Shell([CardPermission], true, []), fmt);
            |rs| == 2 && rs[0].safraId == "5" && "5" !in props.safraIds
  {
  }

  /** The requests issued on a new season list when the reset is applied
      before the load reads the selection: a single load with `"_"`. */
  function RequestsOnNewSeasonsReset(props: Props, shell: Shell, fmt: Date -> string): (rs: seq<CostRequest>)
    ensures |rs| <= 1
    ensures forall k :: 0 <= k < |rs| ==> rs[k].safraId == Join(props.safraIds)
  {
    var only := RequestFor(AllValue, props, shell, fmt);
    if only.Some? then [only.value] else []
  }

  /** After the reset every request names exactly the new season list. */
  lemma ResetRequestsNameNewSeasons(props: Props, shell: Shell, fmt: Date -> string)
    requires forall i :: 0 <= i < |props.safraIds| ==> Comma !in props.safraIds[i]
    ensures forall k :: 0 <= k < |RequestsOnNewSeasonsReset(props, shell, fmt)| ==>
              Split(RequestsOnNewSeasonsReset(props, shell, fmt)[k].safraId) == props.safraIds
  {
    var rs := RequestsOnNewSeasonsReset(props, shell, fmt);
    if |rs| > 0 {
      assert |props.safraIds| > 0;
      SplitJoin(props.safraIds);
    }
  }

  /** A new season list puts the selection back on every season. */
  function ResetSelection(c: Card): (r: Card)
    ensures r.selectedSafra == AllValue
    ensures r.cost == c.cost && r.loading == c.loading && r.toasts == c.toasts
  {
    c.(selectedSafra := AllValue)
  }

  // ---------------------------------------------------------------------
  // Display

  /** The season selector: shown only from two options up, led by the
      "every selected season" entry. */
  function SeasonSelector(safraOptions: seq<SelectOption>): (r: Option<seq<SelectOption>>)
    ensures r.Some? <==> |safraOptions| >= 2
    ensures r.Some? ==> |r.value| == |safraOptions| + 1 && r.value[0].value == AllValue && r.value[1..] == safraOptions
  {
    if |safraOptions| >= 2 then
      Some([SelectOption(AllValue, "Todas as Safras Selecionadas")] + safraOptions)
    else None
  }

  /** The figure charted for a line under a cost basis. */
  function ChartValue(unit: string, line: CostLine): real
  {
    if unit == "cost" then line.total
    else if unit == "hectareCost" then line.totalPorHectare
    else line.porcentagem
  }

  /** The series handed to the chart: one entry per line, in order. */
  function ChartData(unit: string, report: CostReport): (r: seq<real>)
    ensures |r| == |report.totalCustoTalhao|
    ensures forall i :: 0 <= i < |r| ==> r[i] == ChartValue(unit, report.totalCustoTalhao[i])
  {
    seq(|report.totalCustoTalhao|, i requires 0 <= i < |report.totalCustoTalhao| => ChartValue(unit, report.totalCustoTalhao[i]))
  }

  /** The caption and amount in the card header. */
  function HeaderCaption(unit: string): string
  {
    if unit == "hectareCost" then "Custo Total/ha: " else "Custo Total: "
  }

  function HeaderAmount(unit: string, report: CostReport): Option<real>
  {
    if unit == "hectareCost" then Some(report.totalCustoPorHectare)
    else if unit == "cost" || unit == "percent" then Some(report.totalCusto)
    else None
  }

  /** The cost basis decides chart and header together: the per-hectare basis
      shows per-hectare figures in both; the plain basis shows line totals
      against the overall total; the percentage basis charts each line's
      share while the header keeps the overall total; any other basis charts
      the shares and shows no amount. */
  lemma BasisSelectsFigures(unit: string, report: CostReport)
    ensures unit == "hectareCost" ==>
              HeaderAmount(unit, report) == Some(report.totalCustoPorHectare) &&
              forall i :: 0 <= i < |report.totalCustoTalhao| ==> ChartData(unit, report)[i] == report.totalCustoTalhao[i].totalPorHectare
    ensures unit == "cost" ==>
              HeaderAmount(unit, report) == Some(report.totalCusto) &&
              forall i :: 0 <= i < |report.totalCustoTalhao| ==> ChartData(unit, report)[i] == report.totalCustoTalhao[i].total
    ensures unit == "percent" ==>
              HeaderAmount(unit, report) == Some(report.totalCusto) &&
              forall i :: 0 <= i < |report.totalCustoTalhao| ==> ChartData(unit, report)[i] == report.totalCustoTalhao[i].porcentagem
    ensures unit !in {"hectareCost", "cost", "percent"} ==>
              HeaderAmount(unit, report).None? &&
              forall i :: 0 <= i < |report.totalCustoTalhao| ==> ChartData(unit, report)[i] == report.totalCustoTalhao[i].porcentagem
    ensures HeaderCaption(unit) == "Custo Total/ha: " ==> HeaderAmount(unit, report) == Some(report.totalCustoPorHectare)
    ensures HeaderCaption(unit) != "Custo Total/ha: " ==> HeaderAmount(unit, report) in {None, Some(report.totalCusto)}
  {
  }

  /** The not-allowed overlay covers the card exactly without the permission. */
  function ShowNotAllowed(shell: Shell): (r: bool)
    ensures r <==> CardPermission !in shell.permissions
  {
    !HasPermission(shell, CardPermission)
  }
}
